=== FILE: README.md ===
# Document editor resolution engine, modelled in Dafny

The editor keeps documents in a local WebSQL store with two tables, `categories(id, name UNIQUE)`
and `documents(id, name, content, category_id, uri UNIQUE)`. The user types a path-like
identifier into the navigator: `category/name` or `name`. Pressing Enter opens that document,
creating the category (after a confirmation) and the document when they are missing. Pressing
Delete removes the document, or the category together with its documents. Every edit autosaves
into the current document. On reload, a `doc_id` cookie reopens the last document.

This project models that engine over an in-memory store:

- `Base`: `Option`, `Result` and the error kinds (`NotFound`, `Cancelled`, `ConstraintViolation`).
- `Uri`: `parse_uri` (split on the first `/`), JavaScript truthiness of the category part, and
  the derivation of a document's `uri`.
- `Tables`: the two tables as maps from row id to row, with fresh ids drawn from per-table
  counters. `WellFormed` holds the schema's UNIQUE constraints, uris derived from their
  category, and no document pointing at a missing category. `Tables` also holds the INSERT
  statements, which fail with the tables unchanged on a UNIQUE clash (the error handler rolls
  back), and the SELECT lookups, which hit only when exactly one row matches.
- `Repository`: `get_category` and `get_document` (lookup-or-create).
- `Engine`: the workflows over `State(store, current, editor, hint)`, where:
  - `current` is `current_document_id`;
  - `editor` is the editor buffer;
  - `hint` is the `doc_id` cookie.

  The workflows are `open_or_create`, `save_document`, `delete_document`, `delete_category`,
  the reload lookup, and the navigator's Enter/Delete keyup handler. Each `window.confirm` is a
  boolean parameter, and each chain of deferreds is a sequence of function calls.
- `Properties`: the invariants every workflow keeps (`Consistent`: a well-formed store, and a
  pointer on an existing row), idempotence of lookup-or-create and of open, the
  save-then-reopen round trip, open-then-delete, and the source's document lookup as written.
- `Scenarios`: how typed text is routed (the empty-category and empty-document quirks), plus
  worked examples: first use on an empty store, a declined cascade, a delete that finds
  nothing, and a reload with a stale cookie.

The lookup `SELECT * FROM documents WHERE name=? AND category_id=?` at scripts.js:127 never
matches a document whose `category_id` is NULL (see Findings). The workflows use the corrected
lookup, which matches `(name, category_id)` exactly, NULL included. The lookup as written is
kept in `Tables.FindDocumentAsWritten` and `Repository.GetDocumentAsWritten`.

Other quirks of the code that the model keeps:

- The empty category in `/x` counts as no category (scripts.js:134, 152, 186), so `/x` opens
  or deletes the uncategorized document `x`.
- On Delete, an empty document part, or a declined "Delete document?", falls through to the
  category question (scripts.js:288-291).
- `delete_category` removes an empty category without asking about its contents. The
  separate "Delete category?" question comes from the keyup handler.

## Model

| member | source | states |
|---|---|---|
| Uri.IndexOf | scripts.js:49 | the result is -1 exactly when the character is absent; otherwise it is a position holding the character with no earlier occurrence |
| Uri.ParseUri | scripts.js:45-61 | a category part is present exactly when the input contains `/`; it then has no `/` and category + "/" + doc rebuilds the input; without a `/` the document part is the whole input |
| Uri.Truthy | scripts.js:152 | a category argument counts as present exactly when it is given and is not the empty string, as JavaScript truthiness has it (the same test recurs at scripts.js:186 and 288-290) |
| Uri.DeriveUri | scripts.js:134 | the uri ends in the name; it is longer than the name exactly when the category is truthy, and then it is the category, a `/`, and the name |
| Uri.ParseDerivedUri | scripts.js:134 | parsing a derived uri returns the category and name it was built from (for a `/`-free category; a falsy category parses as absent) |
| Uri.DeriveParsedUri | scripts.js:49-54 | re-deriving the uri from parsed parts gives the input back exactly when the category part is not the empty string |
| Tables.InsertCategory | scripts.js:110-113 | fails exactly when the name is already used (UNIQUE name), leaving the store unchanged; otherwise adds one row with that name under an unused id and changes nothing else |
| Tables.InsertDocument | scripts.js:135-138 | fails exactly when some row already has the uri (UNIQUE uri); otherwise adds the row under an unused id and changes nothing else |
| Tables.FindCategory | scripts.js:103-106 | a hit names a row carrying the name, and it is the only such row |
| Tables.FindCategoryExact | scripts.js:103-106 | in a well-formed store the category lookup hits if and only if some category has the name |
| Tables.FindDocument | scripts.js:127-131 | a hit names a row with the requested name and category id |
| Tables.FindDocumentExact | scripts.js:127-131 | in a well-formed store the lookup returns id if and only if that row has the requested name and category id |
| Tables.FindDocumentAsWritten | scripts.js:127-131 | the lookup as issued never finds a document when no category id is given; a hit has the requested name and category |
| Tables.AsWrittenAgreesWithCategory | scripts.js:127-129 | with a category id given, the as-written lookup and the corrected one agree |
| Repository.GetCategory | scripts.js:100-123 | an existing name yields its id with no insert; non-create mode never inserts and rejects a miss; a declined confirmation rejects with no insert; an insert adds exactly one row with the name, under a new id; documents are never touched |
| Properties.NewDocumentLinked | scripts.js:133-134 | the row `get_document` inserts is linked: its category exists and its uri is the one derived from that category's name and its own name, whenever the category name and category id it is given agree |
| Repository.ResolveDocument | scripts.js:128-142 | a found row is returned unchanged; a miss rejects, or in create mode inserts the new row, failing exactly when its uri is taken |
| Repository.GetDocument | scripts.js:125-145 | when the lookup finds a row, that row is the result with the store unchanged; the resolved row has the requested name and category; a created row holds the editor buffer when no document is current (else "") and the derived uri; an insert on a taken uri fails with the store unchanged |
| Repository.GetDocumentAsWritten | scripts.js:125-145 | with no category id, non-create mode always rejects and create mode fails exactly when the derived uri is taken |
| Engine.SetDocument | scripts.js:89-98 | the row becomes current and goes into the cookie, the editor shows its content, the store is untouched, and a consistent state stays consistent |
| Engine.OpenDocument | scripts.js:159-166 | an empty name is skipped; otherwise the step succeeds exactly when a row with that name and category exists or the derived uri is free; a found row is opened with no insert; a created row is added under a new id and is the row `get_document` seeds (editor buffer when no document was current, else "", and the derived uri), with no other row changed; a success leaves the pointer on a row with that name and category whose content the editor shows; a failure changes nothing |
| Engine.OpenOrCreate | scripts.js:147-174 | a rejected category resolution leaves the state unchanged and skips the document step; an accepted category step commits on its own, so the categories it leaves are kept even when the document step is skipped or fails (a falsy category changes no category); on success the current pointer, the cookie and the editor show a row with the typed name in the typed category; otherwise pointer, editor and documents are unchanged; existing rows are never changed |
| Engine.SaveDocument | scripts.js:176-180 | an edit, reported by the `onChange` hook (scripts.js:307-308): the editor buffer then holds the new content, and only the current row's content changes, to that content; its name, category and uri and all other rows stay as they were; with no current document the store does not change |
| Engine.RemoveDocument | scripts.js:194-199 | exactly that row is removed and categories and cookie stay; the pointer is cleared, and the editor emptied, exactly when it was on that row; otherwise pointer and editor stay |
| Engine.DeleteDocument | scripts.js:182-210 | never changes categories; when the category part resolves (or is falsy), it succeeds exactly when a row with the typed name in that category exists, and then removes exactly that row as `RemoveDocument` does; a missing category or document changes nothing |
| Engine.DeleteCategory | scripts.js:212-263 | a missing category changes nothing; a declined confirmation for a non-empty category changes nothing; otherwise the category row and exactly its documents are removed, all other rows stay, and the pointer is cleared exactly when it was on a removed document |
| Engine.Restart | scripts.js:318-327 | after a reload the pointer is set if and only if the cookie names an existing row, and then the editor shows that row; otherwise there is no current document |
| Engine.DeleteKey | scripts.js:286-293 | the Delete key on empty text does nothing; nothing is deleted unless the user confirms deleting the document, or the category that the text names; it never adds or rewrites a row; without a `/` it never removes a category (what it deletes for a derived uri: `Scenarios.DeleteOnDerivedUri`) |
| Engine.Dispatch | scripts.js:279-295 | other keys do nothing; Enter never removes or rewrites a row; Delete never adds or rewrites one, and deletes nothing without the user's confirmation (what Enter opens for a derived uri: `Scenarios.EnterOnDerivedUri`) |
| Properties.InsertCategoryKeepsWellFormed | scripts.js:110-113 | a successful category insert keeps the store well formed |
| Properties.InsertDocumentKeepsWellFormed | scripts.js:135-137 | inserting a document linked to its category keeps the store well formed |
| Properties.GetCategoryKeepsWellFormed | scripts.js:100-123 | category lookup-or-create keeps the store well formed |
| Properties.GetDocumentKeepsWellFormed | scripts.js:125-145 | document lookup-or-create keeps the store well formed when the category name matches the category id |
| Properties.OpenOrCreateKeepsConsistent | scripts.js:147-174 | open-or-create keeps the store well formed and the pointer on an existing row |
| Properties.OpenOrCreateOutcome | scripts.js:147-166 | once the category resolves and the name is non-empty, open-or-create succeeds exactly when a row with that name and category exists or the derived uri is free; a found row is opened with no insert; otherwise exactly one row is added, the one `get_document` seeds from the editor buffer |
| Properties.OpenExistingDocument | scripts.js:147-166 | in a consistent state, typing the name and category of an existing row opens exactly that row, with no insert, whatever the confirmation answer |
| Properties.OpenFreeUri | scripts.js:147-166 | when the derived uri is free and the category exists or its creation is accepted, open-or-create succeeds; the new current row carries that uri and starts with the editor buffer when no document was current, else "" |
| Properties.TypedUriFindsRow | scripts.js:127-131 | in a well-formed store, the category part of an existing row resolves to that row's category id, and the exact lookup then finds that row |
| Properties.DeleteExistingDocument | scripts.js:182-199 | in a consistent state, deleting the name and category of an existing row succeeds and removes exactly that row |
| Properties.SaveDocumentKeepsConsistent | scripts.js:176-180 | saving keeps the state consistent |
| Properties.RemoveDocumentKeepsConsistent | scripts.js:194-199 | removing a row keeps the state consistent: no pointer is left on the removed row |
| Properties.DeleteDocumentKeepsConsistent | scripts.js:192-199 | deleting a document never leaves the pointer on a removed row |
| Properties.DeleteCategoryKeepsConsistent | scripts.js:214-249 | after a cascade no document refers to the removed category and the pointer is not on a removed document |
| Properties.RestartConsistent | scripts.js:318-327 | a reload with any cookie yields a consistent state |
| Properties.DispatchKeepsConsistent | scripts.js:279-295 | every key press keeps the state consistent |
| Properties.GetCategoryIdempotent | scripts.js:104-113 | after an accepted lookup-or-create, asking again returns the same id and inserts nothing |
| Properties.GetDocumentIdempotent | scripts.js:129-137 | after a document is resolved or created, resolving it again returns the same row and inserts nothing |
| Properties.OpenOrCreateIdempotent | scripts.js:147-174 | opening the uri just opened returns the same step: same pointer, no new rows |
| Properties.SaveThenReopen | scripts.js:176-178 | open, save content, reopen the same uri: the editor shows the saved content, the same row is current, nothing is inserted |
| Properties.TypedTextSeedsNewDocument | scripts.js:133-134 | text typed while no document is current becomes the content of the document created by the next open of a free uri, and the editor keeps showing it |
| Properties.OpenThenDelete | scripts.js:192-199 | deleting the uri just opened removes exactly that row and clears pointer and editor |
| Properties.ReopenUncategorizedAsWrittenFails | scripts.js:127-137 | with the lookup as written, reopening an existing uncategorized document fails on the UNIQUE uri and changes nothing |
| Properties.ReopenUncategorizedFinds | scripts.js:127-131 | with the corrected lookup, reopening an existing uncategorized document resolves to it with no insert |
| Scenarios.LeadingSlashIsUncategorized | scripts.js:152-161 | Enter on `/name` does exactly what Enter on `name` does |
| Scenarios.EnterOnDerivedUri | scripts.js:282-284 | Enter on the uri derived from a (category, name) pair is open-or-create of that very pair |
| Scenarios.DeleteOnDerivedUri | scripts.js:286-290 | a confirmed Delete on a derived uri with a document part deletes exactly that (category, name) pair |
| Scenarios.LeadingSlashDeleteIsUncategorized | scripts.js:286-290 | Delete on `/name` does exactly what Delete on `name` does: it targets the uncategorized document `name` |
| Scenarios.DeleteOnCategoryPrefix | scripts.js:288-291 | Delete on `category/` asks only about the category, and deletes it (with the cascade answer) when accepted |
| Scenarios.DeclinedDocumentFallsToCategory | scripts.js:288-291 | declining the document deletion of `category/name` leads to the category deletion when that is accepted |
| Scenarios.DeleteMissingIsNoOp | scripts.js:192-203 | deleting an uncategorized name that no row has reports NotFound and changes nothing |
| Scenarios.RestartAfterDeletingCurrent | scripts.js:318-327 | after the current document is deleted, a reload with the old cookie starts with no current document |
| Scenarios.FirstCategory | scripts.js:104-113 | on an empty store, accepted creation gives category `work` id 1 |
| Scenarios.FirstDocument | scripts.js:129-137 | the first document in category 1 gets id 1, empty content from the empty editor, and uri `work/notes` |
| Scenarios.FirstDocumentOpened | scripts.js:160-163 | the created document becomes current and its id goes into the cookie |
| Scenarios.FirstOpenOnEmptyStore | scripts.js:282-284 | Enter on `work/notes` on an empty store creates category 1 and document 1 and opens it |
| Scenarios.DeclinedCascadeKeepsAll | scripts.js:219-231 | declining deletion of a category holding two documents keeps everything and reports Cancelled |

## Left out

- DOM and editor effects: the navigator's value (cleared on failure, reset to the category
  prefix after a delete), `update_navigator_list`, `update_title` and focus are all UI. The model
  keeps only their effect on the pointer, the editor buffer and the cookie.
- The HTML escaping of uris in the suggestion list (scripts.js:79) is display only.
- `init_db` schema creation (scripts.js:17-36) is I/O. Its constraints appear as `Tables.WellFormed` and as the insert
  failures.
- The `$.Deferred` / `$.when` composition is not modelled; each workflow is sequential. Where
  the source's combined promise never settles, the model reports `Done` or `Skipped` with the
  same store effect. Examples are Enter on `category/` (the category is still created) and a
  category deleted without documents. Only the navigator refresh depends on that promise.
- The cookie regex (scripts.js:318) is not modelled; the cookie's value is an `Option<int>`.
- The `beforeunload` warning (scripts.js:265-269) is a browser hook.
- `window.confirm` is a boolean parameter.
- Store failures other than UNIQUE violations (I/O, quota) are not modelled. The DELETE and
  UPDATE statements therefore never fail in the model. The `REFERENCES` clause is not
  enforced by SQLite by default and is not enforced here either.
- Row ids come from counters that never reuse an id. SQLite gives max(rowid)+1, which can reuse
  the id of a deleted last row. The case where a stale cookie reopens a different document
  that took over such an id is therefore not modelled.
- The autosave `onChange` hook (scripts.js:307-310) is folded into `Engine.SaveDocument`: an
  edit puts the new content into the editor buffer and saves it. Keystrokes, focus and
  `update_title` are not modelled.
- Concurrent overlapping workflows are not modelled; each workflow runs to completion before
  the next.
- Engine.OpenOrCreate: its own contract does not state when the step succeeds, nor what a
  created row holds. With those clauses the function's verification runs past the solver's
  budget. `Properties.OpenOrCreateOutcome` states both, and `Properties.OpenFreeUri` states
  the seed content of a created row directly.

## Findings

| source | as written | input that shows it | evidently intended | confidence | as-written member | corrected member |
|---|---|---|---|---|---|---|
| scripts.js:127 | `WHERE name=? AND category_id=?` is bound to `undefined` for an uncategorized document, and `category_id = NULL` matches no row | a store holding uncategorized document `notes` (uri `notes`); Enter on `notes` tries a second insert, which fails on UNIQUE `uri`, so the document never opens; Delete on `notes` finds nothing | the lookup finds the existing uncategorized row, so the document opens and can be deleted | medium, not executed (assumes WebSQL binds `undefined` as SQL NULL) | Properties.ReopenUncategorizedAsWrittenFails | Properties.ReopenUncategorizedFinds |

=== FILE: base.dfy ===
/** Failure-carrying values shared by the document editor's resolution engine. */
module Base {

  /** A value that may be absent; `None` plays the part of JavaScript's `false` / `undefined` / SQL NULL. */
  datatype Option<+T> = None | Some(value: T)

  /** The ways a lookup or a workflow step can fail. */
  datatype Error =
    | NotFound             // a lookup matched no row and was not allowed to create one
    | Cancelled            // the user declined a confirmation dialog
    | ConstraintViolation  // a statement broke a UNIQUE constraint; its transaction rolled back

  datatype Result<+T> = Ok(value: T) | Err(error: Error)
}

=== FILE: engine.dfy ===
/** The resolution engine: the workflows bound to the navigator's Enter and Delete keys, the
    autosave of the editor, and the restart lookup, over the store together with the
    `current_document_id` pointer, the editor buffer and the `doc_id` cookie. Every
    confirmation dialog is a boolean parameter; the `$.Deferred` chains are flattened into
    sequential steps. */
module Engine {
  import opened Base
  import opened Uri
  import opened Tables
  import opened Repository

  /** `current` is `current_document_id`, `editor` the editor buffer's HTML, and `hint` the
      `doc_id` cookie that survives a page reload. */
  datatype State = State(store: Store, current: Option<int>, editor: string, hint: Option<int>)

  /** How a workflow ended: it applied, it had nothing to do, or a lookup, a confirmation or a
      statement stopped it. */
  datatype Status = Done | Skipped | Failed(error: Error)

  datatype Step = Step(state: State, status: Status)

  /** A well-formed store, and a current document that exists in it. */
  predicate Consistent(st: State) {
    && WellFormed(st.store)
    && (st.current.Some? ==> st.current.value in st.store.documents)
  }

  /** `set_document`: the row becomes current, its content fills the editor and its id is
      written to the cookie. */
  function SetDocument(st: State, id: int): (r: State)
    requires id in st.store.documents
    ensures r.current == Some(id) && r.hint == Some(id)
    ensures r.editor == st.store.documents[id].content
    ensures r.store == st.store
    // opening a row keeps a consistent state consistent
    ensures Consistent(st) ==> Consistent(r)
  {
    st.(current := Some(id), editor := st.store.documents[id].content, hint := Some(id))
  }

  /** The document half of `open_or_create`, run once the category is resolved to `catId`:
      an empty name skips it; an existing row is opened without an insert; otherwise a row is
      created and opened unless its uri is taken. */
  function OpenDocument(st: State, category: Option<string>, catId: Option<int>, name: string): (r: Step)
    requires FreshCounters(st.store)
    ensures name == "" ==> r == Step(st, Skipped)
    ensures name != "" ==>
              (r.status == Done <==> FindDocument(st.store, name, catId).Some? || !UriTaken(st.store, DeriveUri(category, name)))
    ensures name != "" && FindDocument(st.store, name, catId).Some? ==>
              r == Step(SetDocument(st, FindDocument(st.store, name, catId).value), Done)
    ensures r.status == Done ==>
              && r.state.current.Some?
              && r.state.current.value in r.state.store.documents
              && r.state.store.documents[r.state.current.value].name == name
              && r.state.store.documents[r.state.current.value].catId == catId
              && r.state.editor == r.state.store.documents[r.state.current.value].content
    // a created row is new, seeded with the editor buffer when no document was current (else
    // ""), and carries the derived uri
    ensures r.status == Done && FindDocument(st.store, name, catId).None? ==>
              && r.state.current.Some?
              && r.state.current.value !in st.store.documents
              && r.state.store.documents == st.store.documents[r.state.current.value := NewDocument(st.current, st.editor, name, category, catId)]
    ensures r.status != Done ==> r.state == st
  {
    if name == "" then Step(st, Skipped)
    else
      var d := GetDocument(st.store, st.current, st.editor, name, category, catId, true);
      match d.result
      case Err(e) => Step(st, Failed(e))
      case Ok(id) => Step(SetDocument(st.(store := d.store), id), Done)
  }

  /** `open_or_create(category, name)` with `confirm` answering "create category?". */
  function OpenOrCreate(st: State, category: Option<string>, name: string, confirm: bool): (r: Step)
    requires FreshCounters(st.store)
    // a rejected category stops the workflow before the document step: nothing changes
    ensures Truthy(category) && GetCategory(st.store, category.value, true, confirm).result.Err? ==>
              r == Step(st, Failed(GetCategory(st.store, category.value, true, confirm).result.error))
    ensures Truthy(category) && FindCategory(st.store, category.value).None? && !confirm ==>
              r == Step(st, Failed(Cancelled))
    // on success the resolved document, carrying the typed name and category, is current
    ensures r.status == Done ==>
              && name != ""
              && r.state.current.Some?
              && r.state.current.value in r.state.store.documents
              && r.state.store.documents[r.state.current.value].name == name
              && CategoryOf(r.state.store, r.state.store.documents[r.state.current.value].catId)
                 == (if Truthy(category) then category else None)
              && r.state.editor == r.state.store.documents[r.state.current.value].content
              && r.state.hint == r.state.current
    // otherwise the pointer, the editor and the documents are untouched
    ensures r.status != Done ==>
              && r.state.current == st.current && r.state.editor == st.editor && r.state.hint == st.hint
              && r.state.store.documents == st.store.documents
    // rows are only ever added
    ensures forall id :: id in st.store.documents ==>
              id in r.state.store.documents && r.state.store.documents[id] == st.store.documents[id]
    ensures forall c :: c in st.store.categories ==>
              c in r.state.store.categories && r.state.store.categories[c] == st.store.categories[c]
    // the category step commits on its own: what it leaves is kept whatever the document step does
    ensures Truthy(category) && GetCategory(st.store, category.value, true, confirm).result.Ok? ==>
              r.state.store.categories == GetCategory(st.store, category.value, true, confirm).store.categories
    ensures !Truthy(category) ==> r.state.store.categories == st.store.categories
    ensures FreshCounters(r.state.store)
  {
    if Truthy(category) then
      var c := GetCategory(st.store, category.value, true, confirm);
      match c.result
      case Err(e) => Step(st, Failed(e))
      case Ok(id) => OpenDocument(st.(store := c.store), category, Some(id), name)
    else
      OpenDocument(st, category, None, name)
  }

  /** The editor's `onChange` hook: the buffer now holds `content`, and `save_document(content)`
      runs `UPDATE documents SET content=? WHERE id=current_document_id`. Only the current row's
      content changes; with no current row the store does not change. */
  function SaveDocument(st: State, content: string): (r: State)
    ensures r.current == st.current && r.hint == st.hint
    ensures r.editor == content
    ensures r.store.categories == st.store.categories
    ensures r.store.documents.Keys == st.store.documents.Keys
    ensures forall id :: id in st.store.documents && st.current != Some(id) ==>
              r.store.documents[id] == st.store.documents[id]
    ensures st.current.Some? && st.current.value in st.store.documents ==>
              var before := st.store.documents[st.current.value];
              var after := r.store.documents[st.current.value];
              after.content == content && after.name == before.name && after.catId == before.catId && after.uri == before.uri
    ensures st.current.None? ==> r.store == st.store
    ensures FreshCounters(st.store) ==> FreshCounters(r.store)
  {
    match st.current
    case None => st.(editor := content)
    case Some(id) =>
      if id in st.store.documents then
        var docs := st.store.documents;
        st.(store := st.store.(documents := docs[id := docs[id].(content := content)]), editor := content)
      else st.(editor := content)
  }

  /** The body of `delete_document` once the category is resolved: `DELETE FROM documents WHERE
      id=?`, and the editor and pointer are cleared when that row was current. */
  function RemoveDocument(st: State, id: int): (r: State)
    requires id in st.store.documents
    ensures r.store.documents == st.store.documents - {id}
    ensures r.store.categories == st.store.categories && r.hint == st.hint
    ensures r.current.None? <==> st.current.None? || st.current == Some(id)
    ensures r.current.Some? ==> r.current == st.current && r.editor == st.editor
    ensures r.current != st.current ==> r.editor == ""
  {
    var st' := st.(store := st.store.(documents := st.store.documents - {id}));
    if st.current == Some(id) then st'.(current := None, editor := "") else st'
  }

  /** The category id a typed category part denotes, found without creating: absent for a
      falsy part. */
  function TypedCategoryId(s: Store, category: Option<string>): Option<int> {
    if Truthy(category) then FindCategory(s, category.value) else None
  }

  /** `delete_document(category, name)`. The category is looked up without creating it; a
      missing category or document deletes nothing. */
  function DeleteDocument(st: State, category: Option<string>, name: string): (r: Step)
    requires FreshCounters(st.store)
    ensures r.state.store.categories == st.store.categories
    ensures r.status != Done ==> r.state == st
    ensures Truthy(category) && FindCategory(st.store, category.value).None? ==> r == Step(st, Failed(NotFound))
    ensures r.status == Done ==>
              exists id :: && id in st.store.documents
                           && st.store.documents[id].name == name
                           && CategoryOf(st.store, st.store.documents[id].catId) == (if Truthy(category) then category else None)
                           && r.state.store.documents == st.store.documents - {id}
                           && r.state.current == (if st.current == Some(id) then None else st.current)
                           && r.state.editor == (if st.current == Some(id) then "" else st.editor)
    // once the category resolves, the row with that name and category id is deleted exactly
    // when it exists
    ensures !Truthy(category) || FindCategory(st.store, category.value).Some? ==>
              (r.status == Done <==> FindDocument(st.store, name, TypedCategoryId(st.store, category)).Some?)
    ensures r.status == Done ==>
              && FindDocument(st.store, name, TypedCategoryId(st.store, category)).Some?
              && r.state == RemoveDocument(st, FindDocument(st.store, name, TypedCategoryId(st.store, category)).value)
    ensures r.state.hint == st.hint
    ensures FreshCounters(r.state.store)
  {
    var catId: Result<Option<int>> :=
      if Truthy(category) then
        var c := GetCategory(st.store, category.value, false, false);
        match c.result
        case Err(e) => Err(e)
        case Ok(id) => Ok(Some(id))
      else Ok(None);
    match catId
    case Err(e) => Step(st, Failed(e))
    case Ok(cid) =>
      var d := GetDocument(st.store, st.current, st.editor, name, category, cid, false);
      match d.result
      case Err(e) => Step(st, Failed(e))
      case Ok(id) => Step(RemoveDocument(st, id), Done)
  }

  /** `delete_category(name)` with `confirm` answering "delete its documents?", asked only when
      the category holds documents. Declining, or a missing category, changes nothing; otherwise
      the category's documents and then the category row go, and nothing else does. */
  function DeleteCategory(st: State, name: string, confirm: bool): (r: Step)
    requires FreshCounters(st.store)
    ensures FindCategory(st.store, name).None? ==> r == Step(st, Failed(NotFound))
    ensures r.status != Done ==> r.state == st
    ensures FindCategory(st.store, name).Some? ==>
              var c := FindCategory(st.store, name).value;
              && (CategoryDocuments(st.store, c) != {} && !confirm ==> r == Step(st, Failed(Cancelled)))
              && (CategoryDocuments(st.store, c) == {} || confirm ==> r.status == Done)
    ensures r.status == Done ==>
              && FindCategory(st.store, name).Some?
              && var c := FindCategory(st.store, name).value;
              && r.state.store.categories == st.store.categories - {c}
              && (forall id :: id in r.state.store.documents
                    <==> id in st.store.documents && st.store.documents[id].catId != Some(c))
              && (forall id :: id in r.state.store.documents ==> r.state.store.documents[id] == st.store.documents[id])
              && r.state.current == (if st.current.Some? && st.current.value in CategoryDocuments(st.store, c) then None else st.current)
              && r.state.editor == (if r.state.current == st.current then st.editor else "")
    ensures r.state.hint == st.hint
    ensures FreshCounters(r.state.store)
  {
    var c := GetCategory(st.store, name, false, false);
    match c.result
    case Err(e) => Step(st, Failed(e))
    case Ok(cid) =>
      var members := CategoryDocuments(st.store, cid);
      if members != {} && !confirm then Step(st, Failed(Cancelled))
      else
        var docs := map id | id in st.store.documents && id !in members :: st.store.documents[id];
        var store := st.store.(documents := docs, categories := st.store.categories - {cid});
        if st.current.Some? && st.current.value in members then
          Step(st.(store := store, current := None, editor := ""), Done)
        else
          Step(st.(store := store), Done)
  }

  /** Page load: the session starts with no current document, then the `doc_id` cookie is looked
      up and its row, if it still exists, becomes current. A stale cookie is no error. */
  function Restart(s: Store, editor: string, hint: Option<int>): (r: State)
    ensures r.store == s && r.hint == hint
    ensures r.current.Some? <==> hint.Some? && hint.value in s.documents
    ensures r.current.Some? ==> r.current == hint && r.editor == s.documents[hint.value].content
    ensures r.current.None? ==> r.editor == editor
  {
    var st := State(s, None, editor, hint);
    match hint
    case Some(id) => if id in s.documents then SetDocument(st, id) else st
    case None => st
  }

  /** The navigator keys the engine reacts to. */
  datatype Key = Enter | Delete | OtherKey

  /** The user's answers to the confirmation dialogs one key press may raise. */
  datatype Answers = Answers(
    createCategory: bool,   // "create category '<name>' ?"
    deleteDocument: bool,   // "Delete document '<text>' ?"
    deleteCategory: bool,   // "Delete category '<name>' ?"
    deleteContents: bool)   // "The category contains n documents ... they will be deleted."

  /** The Delete branch of the navigator's keyup handler on the typed `text`: the document is
      deleted when there is a document part and the user agrees; otherwise, when there is a
      non-empty category part and the user agrees, the category is. */
  function DeleteKey(st: State, text: string, answers: Answers): (r: Step)
    requires FreshCounters(st.store)
    ensures text == "" ==> r == Step(st, Skipped)
    // no row is added or rewritten
    ensures forall id :: id in r.state.store.documents ==>
              id in st.store.documents && r.state.store.documents[id] == st.store.documents[id]
    ensures forall c :: c in r.state.store.categories ==>
              c in st.store.categories && r.state.store.categories[c] == st.store.categories[c]
    // without a `/` there is no category part, so no category can be deleted
    ensures '/' !in text ==> r.state.store.categories == st.store.categories
    // nothing is deleted unless the user confirms the document, or the category it names
    ensures !answers.deleteDocument && !(answers.deleteCategory && Truthy(ParseUri(text).category)) ==>
              r == Step(st, Skipped)
    ensures FreshCounters(r.state.store)
  {
    var p := ParseUri(text);
    if p.doc != "" && answers.deleteDocument then DeleteDocument(st, p.category, p.doc)
    else if Truthy(p.category) && answers.deleteCategory then DeleteCategory(st, p.category.value, answers.deleteContents)
    else Step(st, Skipped)
  }

  /** The navigator's keyup handler: Enter opens or creates what `text` names, Delete deletes it. */
  function Dispatch(st: State, key: Key, text: string, answers: Answers): (r: Step)
    requires FreshCounters(st.store)
    ensures key == OtherKey ==> r == Step(st, Skipped)
    ensures key == Delete && text == "" ==> r == Step(st, Skipped)
    // Enter never removes or rewrites a row
    ensures key == Enter ==>
              forall id :: id in st.store.documents ==>
                id in r.state.store.documents && r.state.store.documents[id] == st.store.documents[id]
    // Delete never adds or rewrites a row
    ensures key == Delete ==>
              forall id :: id in r.state.store.documents ==>
                id in st.store.documents && r.state.store.documents[id] == st.store.documents[id]
    ensures key == Delete && '/' !in text ==> r.state.store.categories == st.store.categories
    ensures key == Delete && !answers.deleteDocument && !(answers.deleteCategory && Truthy(ParseUri(text).category)) ==>
              r == Step(st, Skipped)
    ensures FreshCounters(r.state.store)
  {
    match key
    case OtherKey => Step(st, Skipped)
    case Enter =>
      var p := ParseUri(text);
      OpenOrCreate(st, p.category, p.doc, answers.createCategory)
    case Delete => DeleteKey(st, text, answers)
  }
}

=== FILE: properties.dfy ===
/** Properties that relate several operations: the store invariants every workflow keeps,
    idempotence of open-or-create, the save/reopen round trip, and the behaviour of the
    document lookup exactly as the source issues it. */
module Properties {
  import opened Base
  import opened Uri
  import opened Tables
  import opened Repository
  import opened Engine

  /** A new category (fresh id, unused name) keeps the store well formed. */
  lemma InsertCategoryKeepsWellFormed(s: Store, name: string)
    requires WellFormed(s)
    ensures InsertCategory(s, name).Ok? ==> WellFormed(InsertCategory(s, name).value.0)
  {
  }

  /** A new document whose uri is derived from its own category keeps the store well formed. */
  lemma InsertDocumentKeepsWellFormed(s: Store, d: Doc)
    requires WellFormed(s) && Linked(s, d)
    ensures InsertDocument(s, d).Ok? ==> WellFormed(InsertDocument(s, d).value.0)
  {
    if InsertDocument(s, d).Ok? {
      var t := InsertDocument(s, d).value.0;
      var n := InsertDocument(s, d).value.1;
      forall a, b | a in t.documents && b in t.documents && t.documents[a].uri == t.documents[b].uri
        ensures a == b
      {
        if a != n && b != n {
          assert s.documents[a].uri == s.documents[b].uri;
        }
      }
      forall id | id in t.documents
        ensures Linked(t, t.documents[id])
      {
        if id in s.documents {
          assert Linked(s, s.documents[id]);
        }
      }
    }
  }

  /** `get_category` keeps the store well formed in every mode. */
  lemma GetCategoryKeepsWellFormed(s: Store, name: string, create: bool, confirm: bool)
    requires WellFormed(s)
    ensures WellFormed(GetCategory(s, name, create, confirm).store)
  {
  }

  /** The row `get_document` inserts is linked: its category exists and its uri is the one
      derived from that category's name and its own, whenever the category name it is given is
      the name of the category id it is given (or both are absent). */
  lemma NewDocumentLinked(s: Store, current: Option<int>, editor: string, name: string,
                          category: Option<string>, catId: Option<int>)
    requires catId.Some? ==> catId.value in s.categories && category == Some(s.categories[catId.value]) && Truthy(category)
    requires catId.None? ==> !Truthy(category)
    ensures Linked(s, NewDocument(current, editor, name, category, catId))
  {
  }

  /** `get_document` keeps the store well formed when the category name it is given is the name
      of the category id it is given (or both are absent), as `open_or_create` ensures. */
  lemma GetDocumentKeepsWellFormed(s: Store, current: Option<int>, editor: string, name: string,
                                   category: Option<string>, catId: Option<int>, create: bool)
    requires WellFormed(s)
    requires catId.Some? ==> catId.value in s.categories && category == Some(s.categories[catId.value]) && Truthy(category)
    requires catId.None? ==> !Truthy(category)
    ensures WellFormed(GetDocument(s, current, editor, name, category, catId, create).store)
  {
  }

  /** `open_or_create` keeps the state consistent: the store well formed, the pointer on a row. */
  lemma OpenOrCreateKeepsConsistent(st: State, category: Option<string>, name: string, confirm: bool)
    requires Consistent(st)
    ensures Consistent(OpenOrCreate(st, category, name, confirm).state)
  {
    if Truthy(category) {
      var c := GetCategory(st.store, category.value, true, confirm);
      GetCategoryKeepsWellFormed(st.store, category.value, true, confirm);
      if c.result.Ok? && name != "" {
        GetDocumentKeepsWellFormed(c.store, st.current, st.editor, name, category, Some(c.result.value), true);
      }
    } else if name != "" {
      GetDocumentKeepsWellFormed(st.store, st.current, st.editor, name, category, None, true);
    }
  }

  /** Once the category resolves (it is falsy, found, or created), `open_or_create` succeeds
      exactly when a row with the name and category id exists or the derived uri is free; an
      existing row is opened without an insert, and otherwise exactly one row is added: the row
      `get_document` seeds from the editor buffer. */
  lemma OpenOrCreateOutcome(st: State, category: Option<string>, name: string, confirm: bool)
    requires FreshCounters(st.store)
    requires name != ""
    requires Truthy(category) ==> GetCategory(st.store, category.value, true, confirm).result.Ok?
    ensures Truthy(category) ==>
              var c := GetCategory(st.store, category.value, true, confirm);
              var found := FindDocument(c.store, name, Some(c.result.value));
              var r := OpenOrCreate(st, category, name, confirm);
              && (r.status == Done <==> found.Some? || !UriTaken(c.store, DeriveUri(category, name)))
              && (found.Some? ==> r == Step(SetDocument(st.(store := c.store), found.value), Done))
              && (r.status == Done && found.None? ==>
                    && r.state.current.Some? && r.state.current.value !in c.store.documents
                    && r.state.store.documents
                       == c.store.documents[r.state.current.value := NewDocument(st.current, st.editor, name, category, Some(c.result.value))])
    ensures !Truthy(category) ==>
              var found := FindDocument(st.store, name, None);
              var r := OpenOrCreate(st, category, name, confirm);
              && (r.status == Done <==> found.Some? || !UriTaken(st.store, DeriveUri(category, name)))
              && (found.Some? ==> r == Step(SetDocument(st, found.value), Done))
              && (r.status == Done && found.None? ==>
                    && r.state.current.Some? && r.state.current.value !in st.store.documents
                    && r.state.store.documents
                       == st.store.documents[r.state.current.value := NewDocument(st.current, st.editor, name, category, None)])
  {
    if Truthy(category) {
      var c := GetCategory(st.store, category.value, true, confirm);
      assert OpenOrCreate(st, category, name, confirm) == OpenDocument(st.(store := c.store), category, Some(c.result.value), name);
    } else {
      assert OpenOrCreate(st, category, name, confirm) == OpenDocument(st, category, None, name);
    }
  }

  /** Opening a typed uri whose row exists (in an existing category, or uncategorized) opens that
      row and inserts nothing, whatever the answer to "create category?". */
  lemma OpenExistingDocument(st: State, category: Option<string>, name: string, confirm: bool, id: int)
    requires Consistent(st)
    requires name != "" && id in st.store.documents && st.store.documents[id].name == name
    requires CategoryOf(st.store, st.store.documents[id].catId) == (if Truthy(category) then category else None)
    ensures OpenOrCreate(st, category, name, confirm) == Step(SetDocument(st, id), Done)
  {
    TypedUriFindsRow(st.store, category, name, id);
    if Truthy(category) {
      FindCategoryExact(st.store, category.value);
    }
    OpenOrCreateOutcome(st, category, name, confirm);
  }

  /** Opening a typed uri that no row carries yet succeeds and creates the row, provided the
      category exists or its creation is accepted; the row is seeded with the editor buffer when
      no document was current, and with "" otherwise. */
  lemma OpenFreeUri(st: State, category: Option<string>, name: string, confirm: bool)
    requires Consistent(st)
    requires name != "" && !UriTaken(st.store, DeriveUri(category, name))
    requires Truthy(category) && FindCategory(st.store, category.value).None? ==> confirm
    ensures var r := OpenOrCreate(st, category, name, confirm);
            && r.status == Done
            && r.state.current.Some? && r.state.current.value !in st.store.documents
            && r.state.store.documents[r.state.current.value].uri == DeriveUri(category, name)
            && r.state.store.documents[r.state.current.value].content == (if st.current.None? then st.editor else "")
  {
    if Truthy(category) {
      FindCategoryExact(st.store, category.value);
      GetCategoryIdempotent(st.store, category.value, true, true);
    }
    OpenOrCreateOutcome(st, category, name, confirm);
  }

  /** In a well-formed store, a row whose name and category are the typed ones is what the typed
      category part and the document lookup resolve to. */
  lemma TypedUriFindsRow(s: Store, category: Option<string>, name: string, id: int)
    requires WellFormed(s)
    requires id in s.documents && s.documents[id].name == name
    requires CategoryOf(s, s.documents[id].catId) == (if Truthy(category) then category else None)
    ensures TypedCategoryId(s, category) == s.documents[id].catId
    ensures FindDocument(s, name, TypedCategoryId(s, category)) == Some(id)
  {
    if Truthy(category) {
      FindCategoryExact(s, category.value);
    }
    FindDocumentExact(s, name, s.documents[id].catId, id);
  }

  /** Deleting a typed uri whose row exists removes that row. */
  lemma DeleteExistingDocument(st: State, category: Option<string>, name: string, id: int)
    requires Consistent(st)
    requires id in st.store.documents && st.store.documents[id].name == name
    requires CategoryOf(st.store, st.store.documents[id].catId) == (if Truthy(category) then category else None)
    ensures DeleteDocument(st, category, name) == Step(RemoveDocument(st, id), Done)
  {
    TypedUriFindsRow(st.store, category, name, id);
  }

  /** Saving rewrites only content, which no invariant mentions. */
  lemma SaveDocumentKeepsConsistent(st: State, content: string)
    requires Consistent(st)
    ensures Consistent(SaveDocument(st, content))
  {
    var r := SaveDocument(st, content);
    forall id | id in r.store.documents
      ensures Linked(r.store, r.store.documents[id])
    {
      assert Linked(st.store, st.store.documents[id]);
    }
  }

  /** Removing one row keeps the state consistent: the pointer is cleared if it was on that row. */
  lemma RemoveDocumentKeepsConsistent(st: State, id: int)
    requires Consistent(st) && id in st.store.documents
    ensures Consistent(RemoveDocument(st, id))
  {
    var r := RemoveDocument(st, id);
    forall d | d in r.store.documents
      ensures Linked(r.store, r.store.documents[d])
    {
      assert Linked(st.store, st.store.documents[d]);
    }
  }

  /** Deleting a document keeps the state consistent; in particular the pointer never dangles. */
  lemma DeleteDocumentKeepsConsistent(st: State, category: Option<string>, name: string)
    requires Consistent(st)
    ensures Consistent(DeleteDocument(st, category, name).state)
  {
    var r := DeleteDocument(st, category, name);
    if r.status == Done {
      RemoveDocumentKeepsConsistent(st, FindDocument(st.store, name, TypedCategoryId(st.store, category)).value);
    }
  }

  /** Deleting a category keeps the state consistent: no remaining document refers to the
      removed category, and the pointer does not refer to a removed document. */
  lemma DeleteCategoryKeepsConsistent(st: State, name: string, confirm: bool)
    requires Consistent(st)
    ensures Consistent(DeleteCategory(st, name, confirm).state)
  {
  }

  /** Whatever the cookie says, a page load yields a consistent state. */
  lemma RestartConsistent(s: Store, editor: string, hint: Option<int>)
    requires WellFormed(s)
    ensures Consistent(Restart(s, editor, hint))
  {
  }

  /** Every key press keeps the state consistent. */
  lemma DispatchKeepsConsistent(st: State, key: Key, text: string, answers: Answers)
    requires Consistent(st)
    ensures Consistent(Dispatch(st, key, text, answers).state)
  {
    var p := ParseUri(text);
    match key
    case OtherKey =>
    case Enter => OpenOrCreateKeepsConsistent(st, p.category, p.doc, answers.createCategory);
    case Delete =>
      if p.doc != "" && answers.deleteDocument {
        DeleteDocumentKeepsConsistent(st, p.category, p.doc);
      } else if Truthy(p.category) && answers.deleteCategory {
        DeleteCategoryKeepsConsistent(st, p.category.value, answers.deleteContents);
      }
  }

  /** `get_category` in create mode, accepted, finds or makes the row; asking again with any
      answers returns the same id and inserts nothing. */
  lemma GetCategoryIdempotent(s: Store, name: string, create: bool, confirm: bool)
    requires WellFormed(s)
    ensures var r := GetCategory(s, name, true, true);
            r.result.Ok? && GetCategory(r.store, name, create, confirm) == r
  {
    var r := GetCategory(s, name, true, true);
    FindCategoryExact(s, name);
    GetCategoryKeepsWellFormed(s, name, true, true);
    FindCategoryExact(r.store, name);
  }

  /** Once `get_document` has resolved a row, resolving the same (name, category) again returns
      that row and inserts nothing. */
  lemma GetDocumentIdempotent(s: Store, current: Option<int>, editor: string, name: string,
                              category: Option<string>, catId: Option<int>,
                              current': Option<int>, editor': string, create: bool)
    requires WellFormed(s)
    requires catId.Some? ==> catId.value in s.categories && category == Some(s.categories[catId.value]) && Truthy(category)
    requires catId.None? ==> !Truthy(category)
    ensures var r := GetDocument(s, current, editor, name, category, catId, true);
            r.result.Ok? ==> GetDocument(r.store, current', editor', name, category, catId, create) == r
  {
    var r := GetDocument(s, current, editor, name, category, catId, true);
    GetDocumentKeepsWellFormed(s, current, editor, name, category, catId, true);
    if r.result.Ok? {
      FindDocumentExact(r.store, name, catId, r.result.value);
    }
  }

  /** Opening the uri just opened changes nothing: the same row stays current and no row is
      added, whatever the answer to "create category?". */
  lemma OpenOrCreateIdempotent(st: State, category: Option<string>, name: string, confirm: bool, confirm': bool)
    requires Consistent(st)
    ensures var r := OpenOrCreate(st, category, name, confirm);
            r.status == Done ==> OpenOrCreate(r.state, category, name, confirm') == r
  {
    var r := OpenOrCreate(st, category, name, confirm);
    if r.status == Done {
      OpenOrCreateKeepsConsistent(st, category, name, confirm);
      OpenExistingDocument(r.state, category, name, confirm', r.state.current.value);
    }
  }

  /** The round trip the autosave exists for: open a uri, save new content, open the same uri
      again, and the editor shows the saved content. */
  lemma SaveThenReopen(st: State, category: Option<string>, name: string, confirm: bool,
                       content: string, confirm': bool)
    requires Consistent(st)
    ensures var r := OpenOrCreate(st, category, name, confirm);
            r.status == Done ==>
              var saved := SaveDocument(r.state, content);
              var again := OpenOrCreate(saved, category, name, confirm');
              again.status == Done && again.state.editor == content && again.state.current == r.state.current
              && again.state.store == saved.store
  {
    var r := OpenOrCreate(st, category, name, confirm);
    if r.status == Done {
      OpenOrCreateKeepsConsistent(st, category, name, confirm);
      SaveDocumentKeepsConsistent(r.state, content);
      OpenExistingDocument(SaveDocument(r.state, content), category, name, confirm', r.state.current.value);
    }
  }

  /** The first-save path: text typed while no document is current is what a newly created
      document starts with, and the editor keeps showing it. */
  lemma TypedTextSeedsNewDocument(st: State, text: string, name: string, confirm: bool)
    requires Consistent(st) && st.current.None?
    requires name != "" && !UriTaken(st.store, DeriveUri(None, name))
    ensures var r := OpenOrCreate(SaveDocument(st, text), None, name, confirm);
            && r.status == Done
            && r.state.current.Some? && r.state.current.value in r.state.store.documents
            && r.state.store.documents[r.state.current.value].content == text
            && r.state.editor == text
  {
    SaveDocumentKeepsConsistent(st, text);
    OpenFreeUri(SaveDocument(st, text), None, name, confirm);
  }

  /** Deleting the uri just opened removes that row and clears the editor and the pointer. */
  lemma OpenThenDelete(st: State, category: Option<string>, name: string, confirm: bool)
    requires Consistent(st)
    ensures var r := OpenOrCreate(st, category, name, confirm);
            r.status == Done ==>
              var d := DeleteDocument(r.state, category, name);
              && d.status == Done
              && d.state.store.documents == r.state.store.documents - {r.state.current.value}
              && d.state.current == None && d.state.editor == ""
  {
    var r := OpenOrCreate(st, category, name, confirm);
    if r.status == Done {
      OpenOrCreateKeepsConsistent(st, category, name, confirm);
      DeleteExistingDocument(r.state, category, name, r.state.current.value);
    }
  }

  /** The lookup as the source issues it never finds an uncategorized document, so opening an
      existing uncategorized document tries to insert it again and fails on the UNIQUE `uri`. */
  lemma ReopenUncategorizedAsWrittenFails(s: Store, id: int, current: Option<int>, editor: string, category: Option<string>)
    requires WellFormed(s)
    requires id in s.documents && s.documents[id].catId.None?
    requires !Truthy(category)
    ensures GetDocumentAsWritten(s, current, editor, s.documents[id].name, category, None, true)
            == Lookup(s, Err(ConstraintViolation))
  {
  }

  /** The corrected lookup opens that same uncategorized document without touching the store. */
  lemma ReopenUncategorizedFinds(s: Store, id: int, current: Option<int>, editor: string, category: Option<string>)
    requires WellFormed(s)
    requires id in s.documents && s.documents[id].catId.None?
    ensures GetDocument(s, current, editor, s.documents[id].name, category, None, true) == Lookup(s, Ok(id))
  {
    FindDocumentExact(s, s.documents[id].name, None, id);
  }
}

=== FILE: repository.dfy ===
/** Lookup-or-create for category and document rows (`get_category`, `get_document`). Each call
    is one transaction: it either commits its single INSERT or leaves the store as it was. */
module Repository {
  import opened Base
  import opened Uri
  import opened Tables

  /** The store after a lookup, and the id the lookup resolved (or why it rejected). */
  datatype Lookup = Lookup(store: Store, result: Result<int>)

  /** `get_category(name, create)` with the answer to "create category?" passed as `confirm`:
      a hit returns the existing id; a miss rejects unless `create` holds and the user agrees,
      in which case one row carrying `name` is inserted. */
  function GetCategory(s: Store, name: string, create: bool, confirm: bool): (r: Lookup)
    requires FreshCounters(s)
    ensures FindCategory(s, name).Some? ==> r == Lookup(s, Ok(FindCategory(s, name).value))
    ensures !create || r.result.Err? ==> r.store == s
    ensures FindCategory(s, name).None? && !create ==> r.result == Err(NotFound)
    ensures FindCategory(s, name).None? && create && !confirm ==> r.result == Err(Cancelled)
    ensures r.result.Ok? ==> r.result.value in r.store.categories && r.store.categories[r.result.value] == name
    ensures r.result.Ok? && r.store != s ==>
              && FindCategory(s, name).None? && create && confirm
              && r.result.value !in s.categories
              && r.store.categories == s.categories[r.result.value := name]
    ensures r.store.documents == s.documents && FreshCounters(r.store)
  {
    match FindCategory(s, name)
    case Some(id) => Lookup(s, Ok(id))
    case None =>
      if !create then Lookup(s, Err(NotFound))
      else if !confirm then Lookup(s, Err(Cancelled))
      else
        match InsertCategory(s, name)
        case Ok((s', id)) => Lookup(s', Ok(id))
        case Err(e) => Lookup(s, Err(e))
  }

  /** The row `get_document` inserts on a miss: it is seeded with the editor buffer only when no
      document is current, and its `uri` is derived from the category name as given. */
  function NewDocument(current: Option<int>, editor: string, name: string, category: Option<string>, catId: Option<int>): (r: Doc)
    ensures r.name == name && r.catId == catId
    ensures current.None? ==> r.content == editor
    ensures current.Some? ==> r.content == ""
    ensures r.uri == DeriveUri(category, name)
  {
    Doc(name, if current.None? then editor else "", catId, DeriveUri(category, name))
  }

  /** What `get_document` does once its SELECT has run: a hit resolves to the row found; a miss
      rejects, or in create mode inserts `row`, which fails when its `uri` is taken. */
  function ResolveDocument(s: Store, found: Option<int>, create: bool, row: Doc): (r: Lookup)
    requires FreshCounters(s)
    requires found.Some? ==> found.value in s.documents
    ensures found.Some? ==> r == Lookup(s, Ok(found.value))
    ensures found.None? && !create ==> r == Lookup(s, Err(NotFound))
    ensures found.None? && create ==>
              (r.result.Err? <==> UriTaken(s, row.uri))
    ensures r.result.Err? ==> r.store == s
    ensures r.result.Ok? ==> r.result.value in r.store.documents
    ensures found.None? && r.result.Ok? ==>
              && r.result.value !in s.documents
              && r.store.documents == s.documents[r.result.value := row]
    ensures r.store.categories == s.categories && FreshCounters(r.store)
  {
    match found
    case Some(id) => Lookup(s, Ok(id))
    case None =>
      if !create then Lookup(s, Err(NotFound))
      else
        match InsertDocument(s, row)
        case Ok((s', id)) => Lookup(s', Ok(id))
        case Err(e) => Lookup(s, Err(e))
  }

  /** `get_document(name, category, catId, create)` with the corrected lookup: the resolved row
      always has the requested name and `category_id`; an existing row is returned without an
      insert; a created row carries the seed content and the derived `uri`. */
  function GetDocument(s: Store, current: Option<int>, editor: string, name: string,
                       category: Option<string>, catId: Option<int>, create: bool): (r: Lookup)
    requires FreshCounters(s)
    ensures FindDocument(s, name, catId).Some? ==> r == Lookup(s, Ok(FindDocument(s, name, catId).value))
    ensures r.result.Ok? ==>
              && r.result.value in r.store.documents
              && r.store.documents[r.result.value].name == name
              && r.store.documents[r.result.value].catId == catId
    ensures r.result.Ok? && r.result.value in s.documents ==> r.store == s
    ensures r.result.Ok? && r.result.value !in s.documents ==>
              && r.store.documents == s.documents[r.result.value := r.store.documents[r.result.value]]
              && r.store.documents[r.result.value].content == (if current.None? then editor else "")
              && r.store.documents[r.result.value].uri == DeriveUri(category, name)
    ensures FindDocument(s, name, catId).None? && !create ==> r == Lookup(s, Err(NotFound))
    ensures FindDocument(s, name, catId).None? && create ==>
              (r.result.Err? <==> UriTaken(s, DeriveUri(category, name)))
    ensures r.result.Err? ==> r.store == s
    ensures r.store.categories == s.categories && FreshCounters(r.store)
  {
    ResolveDocument(s, FindDocument(s, name, catId), create, NewDocument(current, editor, name, category, catId))
  }

  /** `get_document` with the SELECT exactly as the source issues it, where `category_id=?`
      never matches an uncategorized row. */
  function GetDocumentAsWritten(s: Store, current: Option<int>, editor: string, name: string,
                                category: Option<string>, catId: Option<int>, create: bool): (r: Lookup)
    requires FreshCounters(s)
    ensures catId.None? && !create ==> r == Lookup(s, Err(NotFound))
    ensures catId.None? && create ==>
              (r.result.Err? <==> UriTaken(s, DeriveUri(category, name)))
    ensures r.result.Err? ==> r.store == s
  {
    ResolveDocument(s, FindDocumentAsWritten(s, name, catId), create, NewDocument(current, editor, name, category, catId))
  }
}

=== FILE: scenarios.dfy ===
/** How the keyboard routes typed text, and worked examples:
    first use on an empty store, a declined cascade, a delete that finds nothing, and a
    restart whose cookie names a deleted document. */
module Scenarios {
  import opened Base
  import opened Uri
  import opened Tables
  import opened Repository
  import opened Engine

  /** Enter on the uri a (category, name) pair derives to opens or creates exactly that pair:
      the navigator's text and `open_or_create`'s arguments name the same document. */
  lemma EnterOnDerivedUri(st: State, category: Option<string>, name: string, answers: Answers)
    requires FreshCounters(st.store)
    requires category.Some? ==> '/' !in category.value
    requires !Truthy(category) ==> '/' !in name
    ensures Dispatch(st, Enter, DeriveUri(category, name), answers)
            == OpenOrCreate(st, category, name, answers.createCategory)
  {
    ParseDerivedUri(category, name);
    if !Truthy(category) {
      // a falsy category derives, and so looks up and inserts, exactly as an absent one
      assert DeriveUri(category, name) == DeriveUri(None, name);
      assert OpenOrCreate(st, category, name, answers.createCategory) == OpenDocument(st, category, None, name);
      assert OpenOrCreate(st, None, name, answers.createCategory) == OpenDocument(st, None, None, name);
    }
  }

  /** Delete on a derived uri with a document part, once the deletion is confirmed, deletes
      exactly that (category, name) pair. */
  lemma DeleteOnDerivedUri(st: State, category: Option<string>, name: string, answers: Answers)
    requires FreshCounters(st.store)
    requires category.Some? ==> '/' !in category.value
    requires !Truthy(category) ==> '/' !in name
    requires name != "" && answers.deleteDocument
    ensures Dispatch(st, Delete, DeriveUri(category, name), answers) == DeleteDocument(st, category, name)
  {
    ParseDerivedUri(category, name);
  }

  /** An empty category part is falsy, so Enter on `/name` opens exactly what Enter on `name`
      opens: an uncategorized document. */
  lemma LeadingSlashIsUncategorized(st: State, name: string, answers: Answers)
    requires FreshCounters(st.store)
    requires '/' !in name
    ensures Dispatch(st, Enter, "/" + name, answers) == Dispatch(st, Enter, name, answers)
  {
  }

  /** An empty category part is falsy on Delete too: Delete on `/name` deletes (or asks about)
      exactly what Delete on `name` does, the uncategorized document `name`. */
  lemma LeadingSlashDeleteIsUncategorized(st: State, name: string, answers: Answers)
    requires FreshCounters(st.store)
    requires '/' !in name
    ensures Dispatch(st, Delete, "/" + name, answers) == Dispatch(st, Delete, name, answers)
  {
  }

  /** Delete on `category/` (an empty document part) asks only about the category. */
  lemma DeleteOnCategoryPrefix(st: State, category: string, answers: Answers)
    requires FreshCounters(st.store)
    requires category != "" && '/' !in category
    ensures Dispatch(st, Delete, category + "/", answers)
            == if answers.deleteCategory then DeleteCategory(st, category, answers.deleteContents)
               else Step(st, Skipped)
  {
  }

  /** Declining to delete the document of `category/name` falls through to the question about
      deleting the whole category. */
  lemma DeclinedDocumentFallsToCategory(st: State, category: string, name: string, answers: Answers)
    requires FreshCounters(st.store)
    requires category != "" && '/' !in category && name != ""
    requires !answers.deleteDocument && answers.deleteCategory
    ensures Dispatch(st, Delete, category + "/" + name, answers) == DeleteCategory(st, category, answers.deleteContents)
  {
    ParseDerivedUri(Some(category), name);
  }

  /** Delete on a name that is not an uncategorized document deletes nothing and reports it. */
  lemma DeleteMissingIsNoOp(st: State, name: string)
    requires Consistent(st)
    requires forall id :: id in st.store.documents ==> st.store.documents[id].name != name || st.store.documents[id].catId.Some?
    ensures DeleteDocument(st, None, name) == Step(st, Failed(NotFound))
  {
  }

  /** After the current document is deleted, a reload whose cookie still names it starts with
      no current document and does not fail. */
  lemma RestartAfterDeletingCurrent(st: State, category: Option<string>, name: string, editor: string)
    requires Consistent(st) && st.hint == st.current
    ensures var r := DeleteDocument(st, category, name);
            r.status == Done && st.current.Some? && r.state.current.None? ==>
              Restart(r.state.store, editor, r.state.hint) == State(r.state.store, None, editor, st.hint)
  {
  }

  /** On an empty store, accepted creation makes `work` category 1. */
  lemma FirstCategory()
    ensures GetCategory(Store(map[], map[], 1, 1), "work", true, true)
            == Lookup(Store(map[1 := "work"], map[], 2, 1), Ok(1))
  {
  }

  /** In that store, `notes` in category 1 becomes document 1, seeded from the empty editor. */
  lemma FirstDocument()
    ensures GetDocument(Store(map[1 := "work"], map[], 2, 1), None, "", "notes", Some("work"), Some(1), true)
            == Lookup(Store(map[1 := "work"], map[1 := Doc("notes", "", Some(1), "work/notes")], 2, 2), Ok(1))
  {
    var s := Store(map[1 := "work"], map[], 2, 1);
    assert DocumentRows(s, "notes", Some(1)) == {};
    assert FindDocument(s, "notes", Some(1)) == None;
    assert DeriveUri(Some("work"), "notes") == "work/notes";
  }

  /** Once category 1 exists, the document step opens document 1 and fills the cookie. */
  lemma FirstDocumentOpened()
    ensures OpenDocument(State(Store(map[1 := "work"], map[], 2, 1), None, "", None), Some("work"), Some(1), "notes")
            == Step(State(Store(map[1 := "work"], map[1 := Doc("notes", "", Some(1), "work/notes")], 2, 2),
                          Some(1), "", Some(1)), Done)
  {
    FirstDocument();
  }

  /** First use: on an empty store with an empty editor, Enter on `work/notes` with the category
      creation accepted makes category 1 `work` and document 1 `work/notes`, with empty content,
      and opens it. */
  lemma FirstOpenOnEmptyStore()
    ensures Dispatch(State(Store(map[], map[], 1, 1), None, "", None), Enter, "work/notes", Answers(true, false, false, false))
            == Step(State(Store(map[1 := "work"], map[1 := Doc("notes", "", Some(1), "work/notes")], 2, 2),
                          Some(1), "", Some(1)), Done)
  {
    ParseDerivedUri(Some("work"), "notes");
    FirstCategory();
    FirstDocumentOpened();
  }

  /** A category with two documents survives, with them, when the cascade is declined. */
  lemma DeclinedCascadeKeepsAll()
    ensures var s := Store(map[1 := "work"],
                           map[1 := Doc("a", "", Some(1), "work/a"), 2 := Doc("b", "", Some(1), "work/b")], 2, 3);
            var st := State(s, None, "", None);
            DeleteCategory(st, "work", false) == Step(st, Failed(Cancelled))
  {
    var s := Store(map[1 := "work"],
                   map[1 := Doc("a", "", Some(1), "work/a"), 2 := Doc("b", "", Some(1), "work/b")], 2, 3);
    assert CategoryRows(s, "work") == {1};
    assert 1 in CategoryDocuments(s, 1);
  }
}

=== FILE: tables.dfy ===
/** The two tables of the local store, `categories` and `documents`, with the statements the
    engine issues against them. The SQL engine itself is abstracted: a table is a map from
    row id to row, fresh ids come from per-table counters, and a statement that breaks a UNIQUE
    constraint fails and leaves the tables as they were. */
module Tables {
  import opened Base
  import opened Uri

  /** A row of `documents`; `catId` is the nullable `category_id` column. */
  datatype Doc = Doc(name: string, content: string, catId: Option<int>, uri: string)

  datatype Store = Store(
    categories: map<int, string>,   // id -> name
    documents: map<int, Doc>,
    nextCategory: int,              // the id the next category INSERT receives
    nextDocument: int)              // the id the next document INSERT receives

  /** Row ids start at 1 and every id in use lies below its table's counter. */
  predicate FreshCounters(s: Store) {
    && 1 <= s.nextCategory && 1 <= s.nextDocument
    && (forall id :: id in s.categories ==> 1 <= id < s.nextCategory)
    && (forall id :: id in s.documents ==> 1 <= id < s.nextDocument)
  }

  /** The name of the category a `category_id` refers to, absent for NULL or a dangling id. */
  function CategoryOf(s: Store, catId: Option<int>): Option<string> {
    match catId
    case None => None
    case Some(c) => if c in s.categories then Some(s.categories[c]) else None
  }

  /** A document's category exists and its `uri` is derived from that category's name and its own. */
  predicate Linked(s: Store, d: Doc) {
    && (d.catId.Some? ==> d.catId.value in s.categories)
    && d.uri == DeriveUri(CategoryOf(s, d.catId), d.name)
  }

  /** The constraints the schema and the engine keep together: fresh counters, `categories.name`
      UNIQUE, `documents.uri` UNIQUE, and every document linked to an existing category. */
  predicate WellFormed(s: Store) {
    && FreshCounters(s)
    && (forall a, b :: a in s.categories && b in s.categories && s.categories[a] == s.categories[b] ==> a == b)
    && (forall a, b :: a in s.documents && b in s.documents && s.documents[a].uri == s.documents[b].uri ==> a == b)
    && (forall id :: id in s.documents ==> Linked(s, s.documents[id]))
  }

  /** `INSERT INTO categories (name) VALUES (?)`: fails on a duplicate name, otherwise adds one
      row under a fresh id and touches nothing else. */
  function InsertCategory(s: Store, name: string): (r: Result<(Store, int)>)
    requires FreshCounters(s)
    ensures r.Err? <==> name in s.categories.Values
    ensures r.Err? ==> r.error == ConstraintViolation
    ensures r.Ok? ==>
              && r.value.1 !in s.categories
              && r.value.0.categories == s.categories[r.value.1 := name]
              && r.value.0.documents == s.documents
              && r.value.0.nextDocument == s.nextDocument
              && FreshCounters(r.value.0)
  {
    if name in s.categories.Values then Err(ConstraintViolation)
    else
      var id := s.nextCategory;
      Ok((s.(categories := s.categories[id := name], nextCategory := id + 1), id))
  }

  /** Some document already carries this `uri`. */
  predicate UriTaken(s: Store, uri: string) {
    exists id :: id in s.documents && s.documents[id].uri == uri
  }

  /** `INSERT INTO documents (...) VALUES (...)`: fails when the `uri` is already taken, otherwise
      adds one row under a fresh id and touches nothing else. */
  function InsertDocument(s: Store, d: Doc): (r: Result<(Store, int)>)
    requires FreshCounters(s)
    ensures r.Err? <==> UriTaken(s, d.uri)
    ensures r.Err? ==> r.error == ConstraintViolation
    ensures r.Ok? ==>
              && r.value.1 !in s.documents
              && r.value.0.documents == s.documents[r.value.1 := d]
              && r.value.0.categories == s.categories
              && r.value.0.nextCategory == s.nextCategory
              && FreshCounters(r.value.0)
  {
    if UriTaken(s, d.uri) then Err(ConstraintViolation)
    else
      var id := s.nextDocument;
      Ok((s.(documents := s.documents[id := d], nextDocument := id + 1), id))
  }

  /** A set of exactly one id has one member. */
  lemma SingletonMembers(m: set<int>)
    requires |m| == 1
    ensures exists x :: x in m
    ensures forall a, b :: a in m && b in m ==> a == b
  {
    if forall x :: x !in m {
      assert false;
    }
    var x :| x in m;
    assert |m - {x}| == 0;
    assert m == {x};
  }

  /** The one member of a singleton set (what `result.rows.item(0)` reads when `rows.length === 1`). */
  function TheOnly(m: set<int>): (x: int)
    requires |m| == 1
    ensures m == {x}
  {
    SingletonMembers(m);
    var x :| x in m;
    assert forall y :: y in m <==> y in {x};
    x
  }

  /** `SELECT id FROM categories WHERE name = ?`. */
  function CategoryRows(s: Store, name: string): set<int> {
    set id | id in s.categories && s.categories[id] == name
  }

  /** The category lookup: a hit only when exactly one row matches. */
  function FindCategory(s: Store, name: string): (r: Option<int>)
    ensures r.Some? ==> r.value in s.categories && s.categories[r.value] == name
    ensures r.Some? ==> forall id :: id in s.categories && s.categories[id] == name ==> id == r.value
  {
    var rows := CategoryRows(s, name);
    if |rows| == 1 then
      var x := TheOnly(rows);
      assert forall id :: id in s.categories && s.categories[id] == name ==> id in rows;
      Some(x)
    else None
  }

  /** With unique names the lookup hits exactly when some category carries the name. */
  lemma FindCategoryExact(s: Store, name: string)
    requires WellFormed(s)
    ensures FindCategory(s, name).Some? <==> name in s.categories.Values
  {
    if name in s.categories.Values {
      if forall id :: id in s.categories ==> s.categories[id] != name {
        assert false;
      }
      var id :| id in s.categories && s.categories[id] == name;
      assert forall other :: other in CategoryRows(s, name) <==> other in {id};
      assert CategoryRows(s, name) == {id};
    }
  }

  /** `SELECT id FROM documents WHERE category_id = ?` for a category id. */
  function CategoryDocuments(s: Store, c: int): set<int> {
    set id | id in s.documents && s.documents[id].catId == Some(c)
  }

  /** Rows with this name whose `category_id` is exactly `catId`, NULL included. */
  function DocumentRows(s: Store, name: string, catId: Option<int>): set<int> {
    set id | id in s.documents && s.documents[id].name == name && s.documents[id].catId == catId
  }

  /** The document lookup by `(name, category_id)` with NULL matching NULL. */
  function FindDocument(s: Store, name: string, catId: Option<int>): (r: Option<int>)
    ensures r.Some? ==> r.value in s.documents && s.documents[r.value].name == name && s.documents[r.value].catId == catId
  {
    var rows := DocumentRows(s, name, catId);
    if |rows| == 1 then Some(TheOnly(rows)) else None
  }

  /** Two documents with the same name and category have the same uri, so in a well-formed store
      the lookup hits exactly the row with that name and category. */
  lemma FindDocumentExact(s: Store, name: string, catId: Option<int>, id: int)
    requires WellFormed(s)
    ensures FindDocument(s, name, catId) == Some(id)
            <==> id in s.documents && s.documents[id].name == name && s.documents[id].catId == catId
  {
    if id in s.documents && s.documents[id].name == name && s.documents[id].catId == catId {
      forall other | other in DocumentRows(s, name, catId)
        ensures other == id
      {
        assert s.documents[other].uri == s.documents[id].uri;
      }
      assert DocumentRows(s, name, catId) == {id};
    }
  }

  /** `category_id = ?` as SQL evaluates it: NULL compares equal to nothing, not even NULL. */
  predicate SqlEquals(a: Option<int>, b: Option<int>) {
    a.Some? && b.Some? && a.value == b.value
  }

  /** Rows the source's `SELECT * FROM documents WHERE name=? AND category_id=?` returns. */
  function DocumentRowsAsWritten(s: Store, name: string, catId: Option<int>): set<int> {
    set id | id in s.documents && s.documents[id].name == name && SqlEquals(s.documents[id].catId, catId)
  }

  /** The document lookup as the source issues it: an uncategorized document is never found. */
  function FindDocumentAsWritten(s: Store, name: string, catId: Option<int>): (r: Option<int>)
    ensures catId.None? ==> r.None?
    ensures r.Some? ==> r.value in s.documents && s.documents[r.value].name == name && s.documents[r.value].catId == catId
  {
    var rows := DocumentRowsAsWritten(s, name, catId);
    if |rows| == 1 then Some(TheOnly(rows)) else None
  }

  /** The source's lookup and the corrected one agree whenever a category id is given. */
  lemma AsWrittenAgreesWithCategory(s: Store, name: string, c: int)
    ensures FindDocumentAsWritten(s, name, Some(c)) == FindDocument(s, name, Some(c))
  {
    forall id | id in s.documents
      ensures SqlEquals(s.documents[id].catId, Some(c)) <==> s.documents[id].catId == Some(c)
    {
    }
    assert DocumentRowsAsWritten(s, name, Some(c)) == DocumentRows(s, name, Some(c));
  }
}

=== FILE: uri.dfy ===
/** The user-typed identifier: `category/document` or `document`. */
module Uri {
  import opened Base

  /** What `parse_uri` returns: the category part (absent when there is no `/`) and the document part. */
  datatype Parsed = Parsed(category: Option<string>, doc: string)

  /** `String.prototype.indexOf` for a single character: the first position of `ch`, or -1. */
  function IndexOf(s: string, ch: char): (i: int)
    ensures -1 <= i < |s|
    ensures i == -1 <==> ch !in s
    ensures i != -1 ==> s[i] == ch && ch !in s[..i]
  {
    if |s| == 0 then -1
    else if s[0] == ch then 0
    else
      var j := IndexOf(s[1..], ch);
      assert s == [s[0]] + s[1..];
      if j == -1 then -1
      else
        assert s[..j + 1] == [s[0]] + s[1..][..j];
        j + 1
  }

  /** Splits on the first `/`: text before it is the category, everything after it the document. */
  function ParseUri(uri: string): (r: Parsed)
    ensures r.category.Some? <==> '/' in uri
    ensures r.category.Some? ==> '/' !in r.category.value && r.category.value + "/" + r.doc == uri
    ensures r.category.None? ==> r.doc == uri
  {
    var i := IndexOf(uri, '/');
    if i == -1 then Parsed(None, uri)
    else
      assert uri == uri[..i] + "/" + uri[i + 1..];
      Parsed(Some(uri[..i]), uri[i + 1..])
  }

  /** JavaScript truthiness of a category argument: `false` and the empty string are both falsy. */
  predicate Truthy(category: Option<string>) {
    category.Some? && category.value != ""
  }

  /** The `uri` column of a new document: `category/name`, or just `name` when the category is falsy. */
  function DeriveUri(category: Option<string>, name: string): (u: string)
    ensures |u| >= |name| && u[|u| - |name|..] == name
    ensures Truthy(category) <==> |u| > |name|
    ensures Truthy(category) ==>
              |u| == |category.value| + 1 + |name| && u[..|category.value|] == category.value && u[|category.value|] == '/'
  {
    if Truthy(category) then category.value + "/" + name else name
  }

  /** A `/`-free prefix in front of a `/` is determined by the string. */
  lemma SplitUnique(a: string, b: string, x: string, y: string)
    requires '/' !in a && '/' !in x
    requires a + "/" + b == x + "/" + y
    ensures a == x && b == y
  {
    var u := a + "/" + b;
    assert u[|a|] == '/' && u[|x|] == '/';
    assert a == u[..|a|] == x;
    assert b == u[|a| + 1..] == y;
  }

  /** Parsing a derived uri gives back its parts, provided the category has no `/` and,
      when the category is falsy, the name has none either. */
  lemma ParseDerivedUri(category: Option<string>, name: string)
    requires category.Some? ==> '/' !in category.value
    requires !Truthy(category) ==> '/' !in name
    ensures ParseUri(DeriveUri(category, name))
            == if Truthy(category) then Parsed(category, name) else Parsed(None, name)
  {
    var p := ParseUri(DeriveUri(category, name));
    if Truthy(category) {
      assert '/' in DeriveUri(category, name) by {
        assert DeriveUri(category, name)[|category.value|] == '/';
      }
      SplitUnique(p.category.value, p.doc, category.value, name);
    }
  }

  /** Deriving a uri from parsed parts reproduces the input exactly when the category part is not
      the empty string; input `/x` loses its slash because the empty category is falsy. */
  lemma DeriveParsedUri(uri: string)
    ensures DeriveUri(ParseUri(uri).category, ParseUri(uri).doc) == uri
            <==> ParseUri(uri).category != Some("")
  {
  }
}
